=== FILE: README.md ===
# LinesBuffer: the terminal's line store, in Dafny

This project models `LinesBuffer` of the JediTerm terminal emulator. The class is the ordered
list of styled rows behind the screen and its scrollback. It supports:

- a capacity-bounded append that evicts the oldest row;
- row access that synthesizes missing rows;
- cutting rows off one buffer and attaching them to another;
- scroll-region insert-line and delete-line, built from those cuts;
- row clears and in-row edits, handed to the row itself;
- read-only walks over the styled runs of a window of rows.

A buffer is a `seq<Line>`, with row 0 at the top. Every operation is a pure function or a
method that returns the rows afterwards. A Java exception is modelled by
`Outcome.Thrown(lines, error)`, where `error` is `IndexOutOfBounds` (an index or a sublist
bound outside the list) or `IllegalArgument` (a sublist whose start is past its end).
`lines` there holds the rows as the Java object is left at the throw point: a throw does not
roll back what already changed. The line count (`getLineCount`) is `|lines|`.

Modules, one per layer:

- `TerminalLines` (line.dfy): the row collaborator. A `Line` is a sequence of
  `TextEntry(style, text)` runs. There are two empty rows, and the code uses them in different
  places:
  - `EmptyLine` has no runs. The model takes it as the row `TerminalLine.createEmpty()`
    stands for, and `getLine` pads with it.
  - `BlankLine` has one empty run. The model takes it as the row
    `addNewLine(EMPTY, EMPTY)` builds from one empty `TextEntry`, and
    `insertLines`/`deleteLines` insert it.
- `Storage` (storage.dfy): `MaxLines = 1000` (`BUFFER_MAX_LINES`), `AddLine` with its
  eviction, `AppendAll` (repeated `addLine`) and the ratchet lemmas.
- `Transfer` (transfer.dfy): `removeTopLines`, `removeBottomLines`, `addLines`,
  `addLinesFirst`, `moveTopLinesTo` and `moveBottomLinesTo`.
- `Access` (access.dfy): `getLine`, `getLineText`, `writeString`, `deleteCharacters`,
  `clearLines` and `clearArea`.
- `Slices` (slices.dfy): generic sequence facts and the closed-form reference for a region
  shift, `ShiftDown` and `ShiftUp`, with their row-by-row reading.
- `Regions` (regions.dfy): `insertLines` and `deleteLines`. Each is written as the same steps
  the code takes: detach the tail, detach the head, edit the middle, reattach.
- `RegionLaws` (region_laws.dfy): proofs that those steps equal the closed-form shifts, row by
  row, and that an insert followed by the matching delete loses only the rows pushed out.
- `Traversal` (traversal.dfy): `iterateLines`, `processLines` and `getLines`. The callbacks
  become the sequence of calls they would receive.

Behaviour reproduced from the code:

- `addLine` checks for eviction before it appends. A buffer grown only by appends therefore
  holds up to 1001 rows, not 1000.
- `deleteLines` keeps the surviving region rows and puts the blanks at the bottom of the
  region. So `deleteLines(0, 2, 2)` on `[A, B, C]` gives `[C, _, _]`
  (`RegionLaws.DeleteLinesExample`).
- `moveTopLinesTo` appends the moved rows to the bottom of the destination;
  `moveBottomLinesTo` puts them at its top.
- `clearArea` treats `bottomY` as exclusive and synthesizes missing rows. `clearLines` stops
  at the last existing row and never grows the buffer.
- `getLine` throws for a negative row. It also throws for a row at or past 1001 beyond the
  end, and by then the padding rows have already been appended and evicted.
- Inside `insertLines`, the blank rows go through `addLine` on the temporary head buffer.
  The head holds the rows kept above the region, which can be fewer than `y`. When those rows
  plus `count` exceed 1001, the head evicts rows. For a region `y..end-1` inside a buffer of
  at most 1001 rows, the call then throws or shrinks the buffer
  (`RegionLaws.InsertLinesEvictionLosesRows`). Size preservation is proved only without that
  eviction.

Calls that throw after they have already changed the buffer (the `lines` of their `Thrown`
outcome differ from the rows before the call):

- `getLine` for a row at or past 1001 beyond the end: the padding rows are already appended,
  and the oldest rows evicted. `getLineText`, `writeString` and `deleteCharacters` throw the
  same way, since they start with `getLine`.
- `insertLines` with a negative count: the head is merged back and the tail is still
  detached, so the buffer holds only the rows above the region's end.
- `insertLines` with a count larger than the rows left after the head's eviction: the same
  detached state, with `IllegalArgument` (`RegionLaws.InsertLinesTooManyThrows`).
- `deleteLines` with a negative count: head and tail are both detached, so the buffer holds
  only the region.
- `clearArea` partway through: the rows before the failing one are already cleared, and
  missing rows already synthesized.

`clearLines` with a negative start row no greater than the end row throws before it changes
anything; with a start row past the end row it does nothing and does not throw.

## Model

| member | source | states |
|---|---|---|
| Storage.AddLine | src-terminal/com/jediterm/terminal/display/LinesBuffer.java:53-59 | the new row is last; the rows before it are the newest rows of the old buffer, one fewer exactly when the old buffer had more than 1000 rows; at most 1001 rows before means at most 1001 after |
| Storage.AddNewLine | src-terminal/com/jediterm/terminal/display/LinesBuffer.java:44-51 | appends a row holding exactly the one run (style, text); the old rows stay in front, minus the top row when there were more than 1000 |
| Storage.AppendAll | src-terminal/com/jediterm/terminal/display/LinesBuffer.java:213-215 | one addLine per row, in order, as in getLine's padding loop and the blank-row loops of insertLines (lines 87-89) and deleteLines (lines 116-118); what it leaves is stated by Storage.AppendAllKeepsNewest and its corollaries |
| Storage.AppendAllKeepsNewest | src-terminal/com/jediterm/terminal/display/LinesBuffer.java:53-59 | appending rows one by one through addLine keeps exactly the newest RatchetSize rows of old rows followed by new rows, in order |
| Storage.AppendsToEmpty | src-terminal/com/jediterm/terminal/display/LinesBuffer.java:53-59 | k appends to an empty buffer leave the last min(k, 1001) appended rows, in order |
| Storage.AppendAllBounded | src-terminal/com/jediterm/terminal/display/LinesBuffer.java:53-59 | from at most 1001 rows, appends end with min(old + appended, 1001) rows |
| Storage.AppendAllWithoutEviction | src-terminal/com/jediterm/terminal/display/LinesBuffer.java:53-59 | appends that stay within 1001 rows evict nothing: the result is the old rows followed by the new ones |
| Transfer.RemoveTopLines | src-terminal/com/jediterm/terminal/display/LinesBuffer.java:65-67 | the buffer loses exactly count rows |
| Transfer.RemoveTopLinesSplits | src-terminal/com/jediterm/terminal/display/LinesBuffer.java:65-67 | the removed top rows followed by what removeTopLines leaves give back the buffer |
| Transfer.RemoveBottomLines | src-terminal/com/jediterm/terminal/display/LinesBuffer.java:234-236 | the buffer loses exactly count rows |
| Transfer.RemoveBottomLinesSplits | src-terminal/com/jediterm/terminal/display/LinesBuffer.java:234-236 | what removeBottomLines leaves followed by the removed bottom rows give back the buffer |
| Transfer.AddLines | src-terminal/com/jediterm/terminal/display/LinesBuffer.java:206-208 | the size grows by the number of added rows |
| Transfer.AddLinesUndone | src-terminal/com/jediterm/terminal/display/LinesBuffer.java:206-208 | the old rows stay on top, the added rows are the bottom, and removing that many bottom rows gives back the buffer |
| Transfer.AddLinesFirst | src-terminal/com/jediterm/terminal/display/LinesBuffer.java:228-232 | the size grows by the number of added rows |
| Transfer.AddLinesFirstUndone | src-terminal/com/jediterm/terminal/display/LinesBuffer.java:228-232 | the added rows are the top, the old rows the bottom, and removing that many top rows gives back the buffer |
| Transfer.MoveTopLinesTo | src-terminal/com/jediterm/terminal/display/LinesBuffer.java:200-204 | min(count, size) rows move and the total number of rows is conserved |
| Transfer.MoveTopLinesToConserves | src-terminal/com/jediterm/terminal/display/LinesBuffer.java:200-204 | the destination keeps its rows in front, and the moved rows followed by what is left of the source are the old source |
| Transfer.MoveBottomLinesTo | src-terminal/com/jediterm/terminal/display/LinesBuffer.java:221-226 | min(count, size) rows move and the total number of rows is conserved |
| Transfer.MoveBottomLinesToConserves | src-terminal/com/jediterm/terminal/display/LinesBuffer.java:221-226 | the destination keeps its rows at the bottom, and what is left of the source followed by the moved rows is the old source |
| Transfer.MoveTopSlices | src-terminal/com/jediterm/terminal/display/LinesBuffer.java:200-208 | with k = min(count, size of the source), the source becomes its rows from k on and the destination becomes itself followed by the source's first k rows |
| Transfer.MoveBottomSlices | src-terminal/com/jediterm/terminal/display/LinesBuffer.java:221-236 | with k = min(count, size of the source), the source loses its last k rows and the destination becomes those k rows followed by itself |
| Transfer.MoveAllTop | src-terminal/com/jediterm/terminal/display/LinesBuffer.java:200-204 | moving every row of a buffer to the bottom of another empties it and appends its rows in order |
| Transfer.MoveAllBottom | src-terminal/com/jediterm/terminal/display/LinesBuffer.java:221-226 | moving every row of a buffer to the top of another empties it and prepends its rows in order |
| Transfer.CutAndReattach | src-terminal/com/jediterm/terminal/display/LinesBuffer.java:75-96 | cutting tail and head off with the two primitives yields the exact slices, and reattaching them with the same primitives gives back the buffer unchanged |
| Access.Pad | src-terminal/com/jediterm/terminal/display/LinesBuffer.java:212-216 | getLine's padding loop, one empty row per missing index through addLine; what it leaves is stated by Access.PadShape |
| Access.AppendEmpties | src-terminal/com/jediterm/terminal/display/LinesBuffer.java:212-216 | appending k empty rows through addLine ends with min(size + k, 1001) rows from at most 1001, keeps a larger size, and within 1001 rows is plain concatenation |
| Access.PadShape | src-terminal/com/jediterm/terminal/display/LinesBuffer.java:211-216 | getLine's padding loop appends empty rows up to the row when that stays within 1001 rows; past that it ends at 1001 rows, or keeps a larger buffer's size |
| Access.GetLine | src-terminal/com/jediterm/terminal/display/LinesBuffer.java:210-219 | succeeds exactly when 0 <= row and (row < size or row <= 1000); then the size is max(size, row + 1), old rows are unchanged, added rows are empty, and the returned row is the one at row; a negative row changes nothing |
| Access.GetLineText | src-terminal/com/jediterm/terminal/display/LinesBuffer.java:69-73 | succeeds under the same condition as getLine and returns the text of the row there, or of an empty row; the buffer is left as getLine leaves it |
| Access.WriteString | src-terminal/com/jediterm/terminal/display/LinesBuffer.java:123-127 | succeeds exactly when getLine does; only row y changes, to the row's write of the string, and every other row is the old or synthesized row; a throw leaves the rows getLine leaves, which for a negative y are the old rows |
| Access.DeleteCharacters | src-terminal/com/jediterm/terminal/display/LinesBuffer.java:141-144 | succeeds exactly when getLine does; only row y changes, to the row's character deletion, and every other row is the old or synthesized row; a throw leaves the rows getLine leaves, which for a negative y are the old rows |
| Access.ClearLines | src-terminal/com/jediterm/terminal/display/LinesBuffer.java:129-139 | throws exactly when startRow is negative and not past endRow, and then changes nothing; never changes the size; clears exactly the existing rows in startRow..endRow |
| Access.ClearArea | src-terminal/com/jediterm/terminal/display/LinesBuffer.java:146-151 | succeeds exactly when the row range is empty or 0 <= topY and bottomY is within the buffer or within 1001; then, when topY < bottomY, the size is max(size, bottomY) (an empty range leaves the buffer as it is), rows topY..bottomY-1 get the column clear, all other rows are old or empty |
| Regions.RegionEnd | src-terminal/com/jediterm/terminal/display/LinesBuffer.java:78-80 | the tail cut point lies within the buffer, and is lastLine + 1 for a lastLine inside it |
| Regions.RegionStart | src-terminal/com/jediterm/terminal/display/LinesBuffer.java:83-85 | the head cut point lies within the region end, and is y for a y inside it |
| Regions.CutTail | src-terminal/com/jediterm/terminal/display/LinesBuffer.java:76-80 | the rows kept are those above RegionEnd, the tail is the rest |
| Regions.CutHead | src-terminal/com/jediterm/terminal/display/LinesBuffer.java:82-85 | the head is the rows above RegionStart, the rows kept are the rest |
| Regions.CutRegion | src-terminal/com/jediterm/terminal/display/LinesBuffer.java:76-85 | head, region and tail are the slices [0, lo), [lo, hi), [hi, size) |
| Regions.InsertLines | src-terminal/com/jediterm/terminal/display/LinesBuffer.java:75-96 | a negative count throws IndexOutOfBounds; any other throw is IllegalArgument |
| Regions.InsertIntoCut | src-terminal/com/jediterm/terminal/display/LinesBuffer.java:87-95 | a negative count throws IndexOutOfBounds, from removeBottomLines' sublist end past the size; any other throw is IllegalArgument, from a count larger than the merged rows |
| Regions.DeleteLines | src-terminal/com/jediterm/terminal/display/LinesBuffer.java:98-121 | throws exactly for a negative count, and then IndexOutOfBounds |
| Regions.DeleteFromCut | src-terminal/com/jediterm/terminal/display/LinesBuffer.java:110-120 | throws exactly for a negative count, from removeTopLines' negative sublist start, and then IndexOutOfBounds |
| RegionLaws.InsertIntoCutPieces | src-terminal/com/jediterm/terminal/display/LinesBuffer.java:87-95 | without head eviction, the result is head, then min(count, region) blanks, then the region minus as many bottom rows, then tail |
| RegionLaws.DeleteFromCutPieces | src-terminal/com/jediterm/terminal/display/LinesBuffer.java:110-120 | without eviction, the result is head, then the region minus its top min(count, region) rows, then as many blanks, then tail |
| RegionLaws.InsertLinesCut | src-terminal/com/jediterm/terminal/display/LinesBuffer.java:75-85 | insertLines cuts the buffer at the region bounds RegionStart and RegionEnd and carries on with the three slices |
| RegionLaws.DeleteLinesCut | src-terminal/com/jediterm/terminal/display/LinesBuffer.java:98-108 | deleteLines cuts the buffer at the region bounds RegionStart and RegionEnd and carries on with the three slices |
| RegionLaws.InsertLinesShifts | src-terminal/com/jediterm/terminal/display/LinesBuffer.java:75-96 | for any y and lastLine, with count >= 0 and no head eviction, insertLines succeeds and equals the closed-form shift down of the clamped region, so the size is kept |
| RegionLaws.DeleteLinesShifts | src-terminal/com/jediterm/terminal/display/LinesBuffer.java:98-121 | for any y and lastLine, with count >= 0 and the region's end within 1001 rows, deleteLines succeeds and equals the closed-form shift up of the clamped region |
| RegionLaws.InsertLinesRegion | src-terminal/com/jediterm/terminal/display/LinesBuffer.java:75-96 | on a region y..end-1 inside the buffer (y <= end <= size) with count >= 0 and y + count <= 1001, insertLines succeeds and shifts exactly those rows down by min(count, region size) |
| RegionLaws.DeleteLinesRegion | src-terminal/com/jediterm/terminal/display/LinesBuffer.java:98-121 | on a region y..end-1 inside a buffer of at most 1001 rows (y <= end <= size <= 1001) with count >= 0, deleteLines succeeds and shifts exactly those rows up by min(count, region size) |
| RegionLaws.InsertLinesRows | src-terminal/com/jediterm/terminal/display/LinesBuffer.java:75-96 | on a region y..end-1 inside the buffer (y <= end <= size) with count >= 0 and y + count <= 1001: insertLines succeeds; same size; rows outside the region unchanged; region rows before y + count blank; region row i >= y + count is old row i - count |
| RegionLaws.DeleteLinesRows | src-terminal/com/jediterm/terminal/display/LinesBuffer.java:98-121 | on a region y..end-1 inside a buffer of at most 1001 rows (y <= end <= size <= 1001) with count >= 0: deleteLines succeeds; same size; rows outside the region unchanged; with t = min(count, region size), region row i is old row i + t up to end - t, and blank below |
| RegionLaws.DeleteAfterInsert | src-terminal/com/jediterm/terminal/display/LinesBuffer.java:98-121 | deleteLines on rows shifted down by t blanks restores them except the region's bottom t rows, which are blank |
| RegionLaws.InsertThenDelete | src-terminal/com/jediterm/terminal/display/LinesBuffer.java:75-121 | insertLines then deleteLines with the same arguments restores every row except the bottom min(count, region size) region rows, which come back blank |
| RegionLaws.InsertLinesTooManyThrows | src-terminal/com/jediterm/terminal/display/LinesBuffer.java:87-95 | on an empty buffer a count past 1001 leaves exactly 1001 blank rows after the head's eviction, and removeBottomLines then throws IllegalArgument with those rows in the buffer |
| RegionLaws.InsertLinesEvictionLosesRows | src-terminal/com/jediterm/terminal/display/LinesBuffer.java:87-95 | for a region y..end-1 inside a buffer of at most 1001 rows (y <= end <= size <= 1001) with count >= 0 and y + count > 1001, the head buffer's eviction makes insertLines throw or shrink the buffer |
| RegionLaws.InsertLinesExample | src-terminal/com/jediterm/terminal/display/LinesBuffer.java:75-96 | [A,B,C,D,E] with insertLines(1, 2, 4) gives [A, blank, blank, B, C] |
| RegionLaws.DeleteLinesExample | src-terminal/com/jediterm/terminal/display/LinesBuffer.java:98-121 | [A,B,C] with deleteLines(0, 2, 2) gives [C, blank, blank] |
| Traversal.RowVisitsRowMajor | src-terminal/com/jediterm/terminal/display/LinesBuffer.java:182-196 | within a row the first run is at column 0 and each next column is the previous one plus the previous run's length; all calls carry the row's index |
| Traversal.VisitsSound | src-terminal/com/jediterm/terminal/display/LinesBuffer.java:171-198 | every processor call is for an existing row y with firstLine <= y < firstLine + count, and is one of that row's run calls |
| Traversal.VisitsComplete | src-terminal/com/jediterm/terminal/display/LinesBuffer.java:171-198 | every run of every existing row in the window gets its call |
| Traversal.VisitsRowMajor | src-terminal/com/jediterm/terminal/display/LinesBuffer.java:171-198 | the calls come row by row from the top, with columns restarting at 0 on each row and advancing by run length |
| Traversal.RowRuns | src-terminal/com/jediterm/terminal/display/LinesBuffer.java:182-196 | the entry loop of one row yields exactly that row's reference calls, or none for a row at or below the window's end |
| Traversal.IterateLines | src-terminal/com/jediterm/terminal/display/LinesBuffer.java:171-198 | the Java loops produce exactly the reference call sequence, which is sound, complete and row-major |
| Traversal.ProcessLines | src-terminal/com/jediterm/terminal/display/LinesBuffer.java:161-169 | one consumer call per processor call of the window shifted by the size; every reported y is negative, at least -size, inside [firstLine, firstLine + count), and carries -size as the origin |
| Traversal.JoinedConcat | src-terminal/com/jediterm/terminal/display/LinesBuffer.java:26-41 | joining two non-empty parts and gluing them with a newline is joining the whole |
| Traversal.GetLines | src-terminal/com/jediterm/terminal/display/LinesBuffer.java:26-41 | the builder loop yields the row texts joined with newlines, and the empty string for an empty buffer |

## Left out

- Locking: `synchronized` and thread safety are not modelled; each call is atomic.
- The unused `Logger` field.
- `TerminalLine`, `TextEntry`, `TextStyle`, `CharBuffer` and `StyledTextConsumer` are not part
  of this model. The row edits `Write`, `Clear`, `ClearColumns` and `DeleteChars` have small
  stand-in bodies. No buffer property depends on what they do inside a row.
- The processor and consumer callbacks are modelled by the sequence of calls they receive.
  Side effects of the callbacks are not modelled.
- Java list views and copies (`subList`, `Lists.newArrayList`) are immutable sequences. Source
  and destination of a transfer are always distinct values.
- Access.WriteString: the column x is a `nat`; what `TerminalLine` does with a negative
  column is not part of this model.
- Access.DeleteCharacters: x and count are `nat`, for the same reason.
- Transfer.RemoveTopLines: requires 0 <= count <= size; outside that the Java `subList` call
  throws. `deleteLines` can pass a negative count (lines 110-112); `Regions.DeleteFromCut`
  models that throw itself, before the call. A bad count from an outside caller of this public
  method is not modelled.
- Transfer.RemoveBottomLines: requires 0 <= count <= size; outside that the Java `subList` call
  throws. `insertLines` can pass a count below 0 or above the size (line 93);
  `Regions.InsertIntoCut` models both throws itself, before the call. Other callers are not
  modelled.
- Transfer.MoveTopLinesTo: requires count >= 0; a negative count makes the Java `subList`
  call throw, and every caller here passes a non-negative count.
- Transfer.MoveBottomLinesTo: requires count >= 0, for the same reason.
- Access.GetLine: when it throws past 1001 rows, the contract does not describe the padded
  and evicted rows left behind. The function body computes them.
- Access.ClearArea: when it throws partway, the contract does not describe the rows already
  cleared. The method returns them.
- Regions.InsertLines: its own contract states only that a negative count throws and which
  exception each throw carries. The shift
  is stated by `RegionLaws.InsertLinesShifts` and `RegionLaws.InsertLinesRows`.
- Regions.InsertIntoCut: its own contract states only that a negative count throws and which
  exception each throw carries;
  `RegionLaws.InsertIntoCutPieces` states the result.
- Regions.DeleteLines: its own contract states only when it throws and with which exception. The shift
  is stated by `RegionLaws.DeleteLinesShifts` and `RegionLaws.DeleteLinesRows`.
- Regions.DeleteFromCut: its own contract states only its throw and its exception;
  `RegionLaws.DeleteFromCutPieces` states the result.
- RegionLaws.InsertLinesShifts: the closed form is proved only without head eviction, that is
  when the rows above the region plus count stay within 1001. Past that bound,
  `RegionLaws.InsertLinesEvictionLosesRows` shows only that the call throws or shrinks the
  buffer, and only for a region y..lastLine inside a buffer of at most 1001 rows; clamped
  regions (negative y, lastLine outside the buffer) and larger buffers are not covered there.
- RegionLaws.DeleteLinesShifts: proved only when the region ends within 1001 rows. Past that,
  re-appending the blanks to the rows above and in the region evicts rows; only unbounded
  transfers build such buffers.
- Java's 32-bit `int` arithmetic: every index and count is an unbounded integer, so wrap-around
  is not modelled. Where it would matter: `getLine(Integer.MAX_VALUE)` loops forever in Java
  (`i <= row` never fails), while `Access.GetLine` throws; `iterateLines` with a large count
  wraps `firstLine + count` negative and visits nothing, while `Traversal.Visits` visits the
  window; `processLines` wraps `getLineCount() + firstLine` likewise; and `insertLines` or
  `deleteLines` with `lastLine == Integer.MIN_VALUE` wrap `getLineCount() - lastLine - 1`
  negative, so Java's `moveBottomLinesTo` throws, while `Regions.RegionEnd` gives 0 and the
  call succeeds.
- Java `String.length()` counts UTF-16 code units and a Dafny `string` counts Unicode scalar
  values. A `char` here stands for one Java `char`; supplementary characters (outside the
  Basic Multilingual Plane, two Java chars each) are not modelled, so the run columns of
  `Traversal.RowVisits` match Java only for text within that plane.
- Row identity: a row is an immutable value here, not a shared Java object. In Java `getLine`
  returns the live `TerminalLine`, and `writeString`, `clearLines`, `deleteCharacters` and
  `clearArea` edit it in place (lines 126, 133, 143, 149). A caller that keeps a returned row
  and edits it later changes the buffer, and a list given to `addLines` that holds one
  `TerminalLine` twice shares edits between both rows. Neither can happen in the model. The
  buffer itself never creates such sharing, so the properties proved here are unaffected.

=== FILE: access.dfy ===
/**
 Row access that grows the buffer (getLine and the edits that go through it), and the
 row-level clears. The buffer decides only which rows an edit touches and whether missing
 rows are synthesized; the edit inside a row is the row's own.
 */
module Access {
  import opened TerminalLines
  import opened Storage
  import opened Slices

  /** `count` rows as TerminalLine.createEmpty() makes them. */
  function Empties(count: nat): Lines
  {
    Fill(count, EmptyLine)
  }

  /** Row i of b if it exists, else the empty row getLine would synthesize there. */
  function RowOr(b: Lines, i: nat): Line
  {
    if i < |b| then b[i] else EmptyLine
  }

  /** The rows after getLine's padding loop: one createEmpty() row appended per missing index
      up to and including `row`, each through addLine (so eviction applies). */
  function Pad(b: Lines, row: int): Lines
  {
    if row >= |b| then AppendAll(b, Empties(row - |b| + 1)) else b
  }

  /** Appending k empty rows: the ratchet sizes, and no eviction within MaxLines + 1 rows. */
  lemma AppendEmpties(b: Lines, k: nat)
    ensures |b| <= MaxLines + 1 ==> |AppendAll(b, Empties(k))| == Min(|b| + k, MaxLines + 1)
    ensures |b| > MaxLines + 1 ==> |AppendAll(b, Empties(k))| == |b|
    ensures |b| + k <= MaxLines + 1 ==> AppendAll(b, Empties(k)) == b + Empties(k)
  {
    AppendAllKeepsNewest(b, Empties(k));
    if |b| + k <= MaxLines + 1 {
      AppendAllWithoutEviction(b, Empties(k));
    }
  }

  /** The padding loop, seen from outside: within MaxLines + 1 rows it appends empty rows; past
      that, a buffer of at most MaxLines + 1 rows ends with exactly MaxLines + 1 rows, and a
      bigger one keeps its size. */
  lemma PadShape(b: Lines, row: int)
    ensures row < |b| ==> Pad(b, row) == b
    ensures row >= |b| && row <= MaxLines ==> Pad(b, row) == b + Empties(row - |b| + 1)
    ensures row >= |b| && |b| <= MaxLines + 1 ==> |Pad(b, row)| == Min(row + 1, MaxLines + 1)
    ensures row >= |b| && |b| > MaxLines + 1 ==> |Pad(b, row)| == |b|
  {
    if row >= |b| {
      AppendEmpties(b, row - |b| + 1);
    }
  }

  /** getLine(row): pad the buffer up to `row`, then return row `row`. A negative row throws
      before anything changes; a row at or past MaxLines + 1 beyond the end throws after the
      padding, because eviction never lets the buffer reach it. */
  function GetLine(b: Lines, row: int): (r: Outcome<Line>)
    ensures r.Ok? <==> 0 <= row && (row < |b| || row <= MaxLines)
    ensures r.Ok? ==> |r.lines| == Max(|b|, row + 1)
    ensures r.Ok? ==> r.lines[..|b|] == b
    ensures r.Ok? ==> forall i :: |b| <= i < |r.lines| ==> r.lines[i] == EmptyLine
    ensures r.Ok? ==> r.value == r.lines[row] == RowOr(b, row)
    ensures row < 0 ==> r.lines == b
  {
    var padded := Pad(b, row);
    PadShape(b, row);
    if 0 <= row < |padded| then Ok(padded, padded[row]) else Thrown(padded, IndexOutOfBounds)
  }

  /** getLineText(row): the text of the row getLine returns. */
  function GetLineText(b: Lines, row: int): (r: Outcome<string>)
    ensures r.Ok? <==> 0 <= row && (row < |b| || row <= MaxLines)
    ensures r.Ok? ==> r.value == Text(RowOr(b, row))
    ensures r.lines == GetLine(b, row).lines
  {
    var got := GetLine(b, row);
    if got.Ok? then Ok(got.lines, Text(got.value)) else Thrown(got.lines, got.error)
  }

  /** Replace the row getLine(row) returns by `edit` of it; every other row as getLine leaves it. */
  function EditRow(b: Lines, row: int, edit: Line -> Line): (r: Outcome<()>)
    ensures r.Ok? <==> 0 <= row && (row < |b| || row <= MaxLines)
    ensures r.Ok? ==> |r.lines| == Max(|b|, row + 1)
    ensures r.Ok? ==> r.lines[row] == edit(RowOr(b, row))
    ensures r.Ok? ==> forall i :: 0 <= i < |r.lines| && i != row ==> r.lines[i] == RowOr(b, i)
    ensures r.Thrown? ==> r.lines == GetLine(b, row).lines
    ensures row < 0 ==> r.Thrown? && r.lines == b
  {
    var got := GetLine(b, row);
    if got.Ok? then Ok(got.lines[row := edit(got.value)], ()) else Thrown(got.lines, got.error)
  }

  /** writeString(x, y, str, style): write into row y, synthesizing it if needed. */
  function WriteString(b: Lines, x: nat, y: int, s: string, style: Style): (r: Outcome<()>)
    ensures r.Ok? <==> 0 <= y && (y < |b| || y <= MaxLines)
    ensures r.Ok? ==> |r.lines| == Max(|b|, y + 1)
    ensures r.Ok? ==> r.lines[y] == Write(RowOr(b, y), x, s, style)
    ensures r.Ok? ==> forall i :: 0 <= i < |r.lines| && i != y ==> r.lines[i] == RowOr(b, i)
    ensures r.Thrown? ==> r.lines == GetLine(b, y).lines
    ensures y < 0 ==> r.Thrown? && r.lines == b
  {
    EditRow(b, y, line => Write(line, x, s, style))
  }

  /** deleteCharacters(x, y, count): delete inside row y, synthesizing it if needed. */
  function DeleteCharacters(b: Lines, x: nat, y: int, count: nat): (r: Outcome<()>)
    ensures r.Ok? <==> 0 <= y && (y < |b| || y <= MaxLines)
    ensures r.Ok? ==> |r.lines| == Max(|b|, y + 1)
    ensures r.Ok? ==> r.lines[y] == DeleteChars(RowOr(b, y), x, count)
    ensures r.Ok? ==> forall i :: 0 <= i < |r.lines| && i != y ==> r.lines[i] == RowOr(b, i)
    ensures r.Thrown? ==> r.lines == GetLine(b, y).lines
    ensures y < 0 ==> r.Thrown? && r.lines == b
  {
    EditRow(b, y, line => DeleteChars(line, x, count))
  }

  /** clearLines(startRow, endRow): clear rows startRow..endRow that exist, stopping at the end
      of the buffer without growing it. A negative startRow throws on its first row. */
  method ClearLines(b: Lines, startRow: int, endRow: int) returns (r: Outcome<()>)
    ensures r.Thrown? <==> startRow < 0 && startRow <= endRow
    ensures r.Thrown? ==> r.lines == b
    ensures |r.lines| == |b|
    ensures r.Ok? ==> forall i :: 0 <= i < |b| ==>
      r.lines[i] == (if startRow <= i <= endRow then Clear(b[i]) else b[i])
  {
    var lines := b;
    var i := startRow;
    while i <= endRow
      invariant i == startRow || (0 <= startRow < i <= endRow + 1)
      invariant |lines| == |b|
      invariant forall k :: 0 <= k < |b| ==> lines[k] == (if startRow <= k < i then Clear(b[k]) else b[k])
      decreases endRow - i
    {
      if i < |lines| {
        if i < 0 {
          return Thrown(lines, IndexOutOfBounds);
        }
        lines := lines[i := Clear(lines[i])];
      } else {
        break;
      }
      i := i + 1;
    }
    return Ok(lines, ());
  }

  /** clearArea(leftX, topY, rightX, bottomY): clear columns [leftX, rightX) of rows
      topY..bottomY-1 (bottomY is exclusive), each fetched through getLine so missing rows are
      synthesized first. */
  method ClearArea(b: Lines, left: int, top: int, right: int, bottom: int) returns (r: Outcome<()>)
    ensures r.Ok? <==> top >= bottom || (0 <= top && (bottom <= |b| || bottom <= MaxLines + 1))
    ensures r.Ok? ==> |r.lines| == (if top < bottom then Max(|b|, bottom) else |b|)
    ensures r.Ok? ==> forall i :: 0 <= i < |r.lines| ==>
      r.lines[i] == (if top <= i < bottom then ClearColumns(RowOr(b, i), left, right) else RowOr(b, i))
    ensures top < 0 ==> r.lines == b
  {
    var lines := b;
    var y := top;
    while y < bottom
      invariant y == top || (0 <= top < y <= bottom && (y <= |b| || y <= MaxLines + 1))
      invariant |lines| == (if y == top then |b| else Max(|b|, y))
      invariant forall i :: 0 <= i < |lines| ==>
        lines[i] == (if top <= i < y then ClearColumns(RowOr(b, i), left, right) else RowOr(b, i))
      decreases bottom - y
    {
      var got := GetLine(lines, y);
      if got.Thrown? {
        return Thrown(got.lines, got.error);
      }
      lines := got.lines[y := ClearColumns(got.value, left, right)];
      y := y + 1;
    }
    return Ok(lines, ());
  }
}

=== FILE: line.dfy ===
/**
 The row collaborator of the line buffer (TerminalLine). Only its observable shape matters
 to the buffer: a row is an ordered sequence of styled text runs, and the buffer hands whole
 rows to the row-level edits below. TerminalLine.java is not part of this model, so the
 character-level bodies of the edits are small stand-ins; nothing proved about the buffer
 depends on what they do inside a row.
 */
module TerminalLines {

  /** Text attributes of a run (TextStyle); `EmptyStyle` is TextStyle.EMPTY. */
  datatype Style = EmptyStyle | Styled(attributes: nat)

  /** One run of a row: a style and the characters drawn in it. */
  datatype TextEntry = TextEntry(style: Style, text: string)

  datatype Line = Line(entries: seq<TextEntry>)

  /** TerminalLine.createEmpty(): a row without runs. */
  const EmptyLine: Line := Line([])

  /** A row made of a single run, as `new TerminalLine(new TextEntry(style, chars))` builds it. */
  function NewLine(style: Style, text: string): (r: Line)
    ensures |r.entries| == 1 && Text(r) == text
  {
    var entries := [TextEntry(style, text)];
    assert entries[..0] == [];
    assert Concat(entries) == Concat(entries[..0]) + text;
    Line(entries)
  }

  /** The blank row that insertLines and deleteLines add: one empty run in the empty style. */
  const BlankLine: Line := NewLine(EmptyStyle, "")

  /** The characters of a sequence of runs, left to right. */
  function Concat(entries: seq<TextEntry>): string
  {
    if entries == [] then [] else Concat(entries[..|entries| - 1]) + entries[|entries| - 1].text
  }

  /** The number of columns a sequence of runs covers. */
  function Width(entries: seq<TextEntry>): nat
  {
    if entries == [] then 0 else Width(entries[..|entries| - 1]) + |entries[|entries| - 1].text|
  }

  /** TerminalLine.getText(). */
  function Text(line: Line): string
  {
    Concat(line.entries)
  }

  // ---------------------------------------------------------------------------
  // Row-level edits (stand-ins, see the module comment)
  // ---------------------------------------------------------------------------

  datatype Cell = Cell(style: Style, ch: char)

  const BlankCell: Cell := Cell(EmptyStyle, ' ')

  function Cells(entries: seq<TextEntry>): seq<Cell>
  {
    if entries == [] then []
    else
      var last := entries[|entries| - 1];
      Cells(entries[..|entries| - 1]) + seq(|last.text|, i requires 0 <= i < |last.text| => Cell(last.style, last.text[i]))
  }

  function FromCells(cells: seq<Cell>): Line
  {
    Line(seq(|cells|, i requires 0 <= i < |cells| => TextEntry(cells[i].style, [cells[i].ch])))
  }

  /** TerminalLine.writeString: overwrite from column x, padding with blanks up to x. */
  function Write(line: Line, x: nat, s: string, style: Style): Line
  {
    var cells := Cells(line.entries);
    var padded := if |cells| < x then cells + seq(x - |cells|, _ => BlankCell) else cells;
    var written := seq(|s|, i requires 0 <= i < |s| => Cell(style, s[i]));
    FromCells(padded[..x] + written + (if x + |s| < |padded| then padded[x + |s|..] else []))
  }

  /** TerminalLine.clear(). */
  function Clear(line: Line): Line
  {
    EmptyLine
  }

  /** TerminalLine.clearArea(leftX, rightX): blank the existing columns in [leftX, rightX). */
  function ClearColumns(line: Line, left: int, right: int): Line
  {
    var cells := Cells(line.entries);
    FromCells(seq(|cells|, i requires 0 <= i < |cells| => if left <= i < right then BlankCell else cells[i]))
  }

  /** TerminalLine.deleteCharacters(x, count): close the gap of `count` columns at x. */
  function DeleteChars(line: Line, x: nat, count: nat): Line
  {
    var cells := Cells(line.entries);
    var from := if x < |cells| then x else |cells|;
    var to := if x + count < |cells| then x + count else |cells|;
    FromCells(cells[..from] + cells[to..])
  }
}

=== FILE: region_laws.dfy ===
/**
 What insertLines and deleteLines do to the rows, proved from the way regions.dfy builds them
 out of the transfer primitives: within the ratchet bound they shift the region by whole rows,
 row by row, and an insert followed by the matching delete loses only the rows pushed out.
 */
module RegionLaws {
  import opened TerminalLines
  import opened Storage
  import opened Transfer
  import opened Slices
  import opened Regions

  /** Dropping `count` rows from the bottom of head + blanks + region keeps the head, the first
      t blanks and the region's top rows. */
  lemma DropBelowRegion(head: Lines, region: Lines, count: nat)
    ensures var t := Min(count, |region|);
      RemoveBottomLines(head + Blanks(count) + region, count) == head + Blanks(t) + region[..|region| - t]
  {
    DropBelow(head, region, count, Min(count, |region|), BlankLine);
  }

  /** insertLines on detached pieces, without eviction: the head grows by `count` blanks and
      takes the whole region below them before the bottom rows are dropped. */
  lemma InsertIntoCutMerged(c: Cut, count: int)
    requires count >= 0 && |c.head| + count <= MaxLines + 1
    ensures InsertIntoCut(c, count)
      == Ok(MoveTopLinesTo(c.tail, |c.tail|, RemoveBottomLines(c.head + Blanks(count) + c.middle, count)).dest, ())
  {
    var grown := AppendAll(c.head, Blanks(count));
    AppendAllWithoutEviction(c.head, Blanks(count));
    MoveAllBottom(grown, c.middle);
  }

  /** insertLines on detached pieces, without eviction: blanks on top of the region, its
      bottom rows dropped. */
  lemma InsertIntoCutPieces(c: Cut, count: int)
    requires count >= 0 && |c.head| + count <= MaxLines + 1
    ensures var t := Min(count, |c.middle|);
      InsertIntoCut(c, count) == Ok(c.head + Blanks(t) + c.middle[..|c.middle| - t] + c.tail, ())
  {
    var t := Min(count, |c.middle|);
    InsertIntoCutMerged(c, count);
    DropBelowRegion(c.head, c.middle, count);
    MoveAllTop(c.tail, c.head + Blanks(t) + c.middle[..|c.middle| - t]);
  }

  /** deleteLines on detached pieces, without eviction: the region's top rows gone, blanks at
      its bottom. */
  lemma DeleteFromCutPieces(c: Cut, count: int)
    requires count >= 0 && |c.head| + |c.middle| <= MaxLines + 1
    ensures var t := Min(count, |c.middle|);
      DeleteFromCut(c, count) == Ok(c.head + c.middle[t..] + Blanks(t) + c.tail, ())
  {
    var t := Min(count, |c.middle|);
    var rest := RemoveTopLines(c.middle, t);
    MoveAllBottom(c.head, rest);
    var merged := c.head + rest;
    AppendAllWithoutEviction(merged, Blanks(t));
    var filled := merged + Blanks(t);
    MoveAllTop(c.tail, filled);
  }

  /** The pieces insertLines and deleteLines cut b into are the rows above lo, the region
      [lo, hi) and the rows from hi on, with lo and hi as RegionStart and RegionEnd give them. */
  lemma CutRegionAt(b: Lines, y: int, lastLine: int, lo: nat, hi: nat)
    requires hi == RegionEnd(|b|, lastLine) && lo == RegionStart(hi, y)
    ensures CutRegion(b, y, lastLine) == Cut(b[..lo], b[lo..hi], b[hi..])
  {
  }

  lemma InsertLinesCut(b: Lines, y: int, count: int, lastLine: int, lo: nat, hi: nat)
    requires hi == RegionEnd(|b|, lastLine) && lo == RegionStart(hi, y)
    ensures InsertLines(b, y, count, lastLine) == InsertIntoCut(Cut(b[..lo], b[lo..hi], b[hi..]), count)
  {
    CutRegionAt(b, y, lastLine, lo, hi);
  }

  lemma DeleteLinesCut(b: Lines, y: int, count: int, lastLine: int, lo: nat, hi: nat)
    requires hi == RegionEnd(|b|, lastLine) && lo == RegionStart(hi, y)
    ensures DeleteLines(b, y, count, lastLine) == DeleteFromCut(Cut(b[..lo], b[lo..hi], b[hi..]), count)
  {
    CutRegionAt(b, y, lastLine, lo, hi);
  }

  /** insertLines on b cut at [lo, hi), without eviction, is ShiftDown of b. */
  lemma InsertIntoCutShifts(b: Lines, lo: nat, hi: nat, count: int)
    requires lo <= hi <= |b| && count >= 0 && lo + count <= MaxLines + 1
    ensures InsertIntoCut(Cut(b[..lo], b[lo..hi], b[hi..]), count)
      == Ok(ShiftDown(b, lo, hi, Min(count, hi - lo), BlankLine), ())
  {
    InsertIntoCutPieces(Cut(b[..lo], b[lo..hi], b[hi..]), count);
    ShiftDownPieces(b, lo, hi, b[..lo], b[lo..hi], b[hi..], Min(count, hi - lo), BlankLine);
  }

  /** deleteLines on b cut at [lo, hi), without eviction, is ShiftUp of b. */
  lemma DeleteFromCutShifts(b: Lines, lo: nat, hi: nat, count: int)
    requires lo <= hi <= |b| && count >= 0 && hi <= MaxLines + 1
    ensures DeleteFromCut(Cut(b[..lo], b[lo..hi], b[hi..]), count)
      == Ok(ShiftUp(b, lo, hi, Min(count, hi - lo), BlankLine), ())
  {
    DeleteFromCutPieces(Cut(b[..lo], b[lo..hi], b[hi..]), count);
    ShiftUpPieces(b, lo, hi, b[..lo], b[lo..hi], b[hi..], Min(count, hi - lo), BlankLine);
  }

  /** With lo and hi the region bounds the code computes, and no eviction in the head buffer
      (the rows above the region plus the blanks stay within MaxLines + 1), insertLines
      shifts the region [lo, hi) down by min(count, hi - lo) rows and keeps the buffer's size. */
  lemma InsertLinesShifts(b: Lines, y: int, count: int, lastLine: int, lo: nat, hi: nat)
    requires hi == RegionEnd(|b|, lastLine) && lo == RegionStart(hi, y)
    requires count >= 0 && lo + count <= MaxLines + 1
    ensures InsertLines(b, y, count, lastLine) == Ok(ShiftDown(b, lo, hi, Min(count, hi - lo), BlankLine), ())
  {
    InsertLinesCut(b, y, count, lastLine, lo, hi);
    InsertIntoCutShifts(b, lo, hi, count);
  }

  /** With lo and hi the region bounds the code computes, and hi within MaxLines + 1 (so the
      blank rows evict nothing), deleteLines shifts the region [lo, hi) up by
      min(count, hi - lo) rows and keeps the buffer's size. */
  lemma DeleteLinesShifts(b: Lines, y: int, count: int, lastLine: int, lo: nat, hi: nat)
    requires hi == RegionEnd(|b|, lastLine) && lo == RegionStart(hi, y)
    requires count >= 0 && hi <= MaxLines + 1
    ensures DeleteLines(b, y, count, lastLine) == Ok(ShiftUp(b, lo, hi, Min(count, hi - lo), BlankLine), ())
  {
    DeleteLinesCut(b, y, count, lastLine, lo, hi);
    DeleteFromCutShifts(b, lo, hi, count);
  }

  /** insertLines on a well-formed region of the buffer, rows y up to (not including) `end`,
      so lastLine is end - 1: exactly those rows shift down. */
  lemma InsertLinesRegion(b: Lines, y: nat, count: int, end: nat)
    requires y <= end <= |b|
    requires count >= 0 && y + count <= MaxLines + 1
    ensures InsertLines(b, y, count, end - 1) == Ok(ShiftDown(b, y, end, Min(count, end - y), BlankLine), ())
  {
    InsertLinesShifts(b, y, count, end - 1, y, end);
  }

  /** deleteLines on a well-formed region of a buffer within the ratchet bound, rows y up to
      (not including) `end`: exactly those rows shift up. */
  lemma DeleteLinesRegion(b: Lines, y: nat, count: int, end: nat)
    requires y <= end <= |b| <= MaxLines + 1
    requires count >= 0
    ensures DeleteLines(b, y, count, end - 1) == Ok(ShiftUp(b, y, end, Min(count, end - y), BlankLine), ())
  {
    DeleteLinesShifts(b, y, count, end - 1, y, end);
  }

  /** insertLines on a well-formed region, row by row: rows above y and from `end` on are
      untouched, the top min(count, end - y) region rows are blank, and the rest of the region
      holds the old region rows moved down by count. */
  lemma InsertLinesRows(b: Lines, y: nat, count: int, end: nat)
    requires y <= end <= |b|
    requires count >= 0 && y + count <= MaxLines + 1
    ensures var r := InsertLines(b, y, count, end - 1);
      r.Ok? && ShiftedDown(b, r.lines, y, end, count, BlankLine)
  {
    InsertLinesRegion(b, y, count, end);
    ShiftDownElements(b, y, end, Min(count, end - y), count, BlankLine);
  }

  /** deleteLines on a well-formed region, row by row: the region shifts up by t, the number
      of rows removed, and its last t rows are blank. */
  lemma DeleteLinesRows(b: Lines, y: nat, count: int, end: nat)
    requires y <= end <= |b| <= MaxLines + 1
    requires count >= 0
    ensures var r := DeleteLines(b, y, count, end - 1);
      r.Ok? && ShiftedUp(b, r.lines, y, end, Min(count, end - y), BlankLine)
  {
    DeleteLinesRegion(b, y, count, end);
    ShiftUpElements(b, y, end, Min(count, end - y), BlankLine);
  }

  /** Shifting a region down by t blank rows and back up loses its bottom t rows to blanks. */
  lemma BlanksDownThenUp(b: Lines, lo: nat, hi: nat, t: nat, mid: Lines)
    requires lo <= hi <= |b| && t <= hi - lo && mid == ShiftDown(b, lo, hi, t, BlankLine)
    ensures |mid| == |b|
    ensures ShiftUp(mid, lo, hi, t, BlankLine) == b[..hi - t] + Blanks(t) + b[hi..]
  {
    ShiftDownThenUp(b, lo, hi, t, BlankLine, mid);
  }

  /** deleteLines on the rows insertLines left (the region shifted down by t blank rows):
      the region's bottom t rows are lost to blanks. */
  lemma DeleteAfterInsert(b: Lines, y: nat, count: int, end: nat, t: nat, mid: Lines)
    requires y <= end <= |b| <= MaxLines + 1
    requires count >= 0 && t == Min(count, end - y) && mid == ShiftDown(b, y, end, t, BlankLine)
    ensures DeleteLines(mid, y, count, end - 1) == Ok(b[..end - t] + Blanks(t) + b[end..], ())
  {
    BlanksDownThenUp(b, y, end, t, mid);
    DeleteLinesRegion(mid, y, count, end);
  }

  /** insertLines followed by deleteLines with the same arguments gives back every row except
      the bottom min(count, end - y) region rows that the insert pushed out, which come back
      blank. */
  lemma InsertThenDelete(b: Lines, y: nat, count: int, end: nat)
    requires y <= end <= |b| <= MaxLines + 1
    requires count >= 0 && y + count <= MaxLines + 1
    ensures InsertLines(b, y, count, end - 1).Ok?
    ensures DeleteLines(InsertLines(b, y, count, end - 1).lines, y, count, end - 1)
      == Ok(b[..end - Min(count, end - y)] + Blanks(Min(count, end - y)) + b[end..], ())
  {
    InsertLinesRegion(b, y, count, end);
    DeleteAfterInsert(b, y, count, end, Min(count, end - y), InsertLines(b, y, count, end - 1).lines);
  }

  /** When the head buffer would pass MaxLines + 1 rows (y + count > MaxLines + 1), its
      eviction swallows rows: insertLines then either throws or leaves the buffer shorter. */
  lemma InsertLinesEvictionLosesRows(b: Lines, y: nat, count: int, end: nat)
    requires y <= end <= |b| <= MaxLines + 1
    requires count >= 0 && y + count > MaxLines + 1
    ensures var r := InsertLines(b, y, count, end - 1);
      r.Thrown? || |r.lines| < |b|
  {
    InsertLinesCut(b, y, count, end - 1, y, end);
    AppendAllBounded(b[..y], Blanks(count));
  }

  /** On an empty buffer a count past MaxLines + 1 leaves the head buffer evicted down to
      MaxLines + 1 blanks, fewer than count, so removeBottomLines rejects its sublist bounds
      with IllegalArgument, the blanks still in the buffer. */
  lemma InsertLinesTooManyThrows(y: int, count: int, lastLine: int)
    requires count > MaxLines + 1
    ensures InsertLines([], y, count, lastLine).Thrown?
    ensures InsertLines([], y, count, lastLine).error == IllegalArgument
    ensures InsertLines([], y, count, lastLine).lines == Blanks(MaxLines + 1)
  {
    var e: Lines := [];
    CutRegionAt(e, y, lastLine, 0, 0);
    AppendsToEmpty(Blanks(count));
    FillSuffix(count, MaxLines + 1, BlankLine);
    MoveAllBottom(AppendAll(e, Blanks(count)), e);
  }

  /** The closed form behind the five-row insertLines example. */
  lemma InsertedFive(a: Line, b: Line, c: Line, d: Line, e: Line)
    ensures ShiftDown([a, b, c, d, e], 1, 5, 2, BlankLine) == [a, BlankLine, BlankLine, b, c]
  {
    var rows := [a, b, c, d, e];
    assert rows[..1] == [a] && rows[1..3] == [b, c] && rows[5..] == [];
    assert Fill(2, BlankLine) == [BlankLine, BlankLine];
  }

  /** Five rows A..E, insertLines(1, 2, 4): two blanks under A, D and E pushed out. */
  lemma InsertLinesExample(a: Line, b: Line, c: Line, d: Line, e: Line)
    ensures InsertLines([a, b, c, d, e], 1, 2, 4) == Ok([a, BlankLine, BlankLine, b, c], ())
  {
    var rows := [a, b, c, d, e];
    InsertLinesRegion(rows, 1, 2, 5);
    InsertedFive(a, b, c, d, e);
  }

  /** The closed form behind the three-row deleteLines example. */
  lemma DeletedThree(a: Line, b: Line, c: Line)
    ensures ShiftUp([a, b, c], 0, 3, 2, BlankLine) == [c, BlankLine, BlankLine]
  {
    var rows := [a, b, c];
    assert rows[..0] == [] && rows[2..3] == [c] && rows[3..] == [];
    assert Fill(2, BlankLine) == [BlankLine, BlankLine];
  }

  /** Three rows A, B, C, deleteLines(0, 2, 2): C moves to the top, two blanks below it. */
  lemma DeleteLinesExample(a: Line, b: Line, c: Line)
    ensures DeleteLines([a, b, c], 0, 2, 2) == Ok([c, BlankLine, BlankLine], ())
  {
    var rows := [a, b, c];
    DeleteLinesRegion(rows, 0, 2, 3);
    DeletedThree(a, b, c);
  }
}

=== FILE: regions.dfy ===
/**
 Scroll-region insert and delete (insertLines, deleteLines), built exactly as the Java code
 builds them: cut the rows below the region into a tail, cut the rows above it into a head,
 edit the middle, reattach head and tail.
 */
module Regions {
  import opened TerminalLines
  import opened Storage
  import opened Transfer
  import opened Slices

  /** `count` blank rows as insertLines and deleteLines add them (addNewLine(EMPTY, EMPTY)). */
  function Blanks(count: nat): Lines
  {
    Fill(count, BlankLine)
  }

  /** Where the code cuts off the tail for a region ending at row `lastLine` of an n-row
      buffer: rows from here down stay untouched. */
  function RegionEnd(n: nat, lastLine: int): (hi: nat)
    ensures hi <= n
    ensures -1 <= lastLine < n ==> hi == lastLine + 1
  {
    if lastLine < n - 1 then Max(lastLine + 1, 0) else n
  }

  /** Where the code cuts off the head for a region starting at row y and ending (exclusive)
      at `hi`: rows above here stay untouched. */
  function RegionStart(hi: nat, y: int): (lo: nat)
    ensures lo <= hi
    ensures 0 <= y <= hi ==> lo == y
  {
    if y > 0 then Min(y, hi) else 0
  }

  /** The rows of b split as the code splits them: the middle is the region. */
  datatype Cut = Cut(head: Lines, middle: Lines, tail: Lines)

  /** `if (lastLine < getLineCount() - 1) moveBottomLinesTo(getLineCount() - lastLine - 1, tail)`:
      the source keeps the rows above RegionEnd, the tail gets the rest. */
  function CutTail(b: Lines, lastLine: int): (m: Moved)
    ensures m.source == b[..RegionEnd(|b|, lastLine)] && m.dest == b[RegionEnd(|b|, lastLine)..]
  {
    if lastLine < |b| - 1 then
      MoveBottomSlices(b, |b| - lastLine - 1, []);
      MoveBottomLinesTo(b, |b| - lastLine - 1, [])
    else
      Moved(b, [])
  }

  /** `if (y > 0) moveTopLinesTo(y, head)`: the head gets the rows above RegionStart. */
  function CutHead(body: Lines, y: int): (m: Moved)
    ensures m.dest == body[..RegionStart(|body|, y)] && m.source == body[RegionStart(|body|, y)..]
  {
    if y > 0 then
      MoveTopSlices(body, y, []);
      MoveTopLinesTo(body, y, [])
    else
      Moved(body, [])
  }

  /** The tail and head detachment shared by insertLines and deleteLines. */
  function CutRegion(b: Lines, y: int, lastLine: int): (c: Cut)
    ensures var hi := RegionEnd(|b|, lastLine); var lo := RegionStart(hi, y);
      c.head == b[..lo] && c.middle == b[lo..hi] && c.tail == b[hi..]
  {
    var cut := CutTail(b, lastLine);
    var split := CutHead(cut.source, y);
    Cut(split.dest, split.source, cut.dest)
  }

  /** insertLines(y, count, lastLine): cut, then insert into the cut region. */
  function InsertLines(b: Lines, y: int, count: int, lastLine: int): (r: Outcome<()>)
    ensures count < 0 ==> r.Thrown? && r.error == IndexOutOfBounds
    ensures r.Thrown? && count >= 0 ==> r.error == IllegalArgument
  {
    InsertIntoCut(CutRegion(b, y, lastLine), count)
  }

  /** The rest of insertLines once head and tail are detached. The blank rows go through
      addLine on the head buffer, so a head reaching MaxLines + 1 rows evicts. With the tail
      still detached, removeBottomLines then throws: IndexOutOfBounds for a negative count (its
      sublist end passes the size), IllegalArgument for a count larger than what is left (its
      sublist end falls below its start). */
  function InsertIntoCut(c: Cut, count: int): (r: Outcome<()>)
    ensures count < 0 ==> r.Thrown? && r.error == IndexOutOfBounds
    ensures r.Thrown? && count >= 0 ==> r.error == IllegalArgument
  {
    var head := AppendAll(c.head, Blanks(Max(count, 0)));
    var merged := MoveBottomLinesTo(head, |head|, c.middle).dest;
    if count < 0 then Thrown(merged, IndexOutOfBounds)
    else if count > |merged| then Thrown(merged, IllegalArgument)
    else
      var kept := RemoveBottomLines(merged, count);
      Ok(MoveTopLinesTo(c.tail, |c.tail|, kept).dest, ())
  }

  /** deleteLines(y, count, lastLine): cut, then delete from the cut region. */
  function DeleteLines(b: Lines, y: int, count: int, lastLine: int): (r: Outcome<()>)
    ensures r.Thrown? <==> count < 0
    ensures r.Thrown? ==> r.error == IndexOutOfBounds
  {
    DeleteFromCut(CutRegion(b, y, lastLine), count)
  }

  /** The rest of deleteLines once head and tail are detached. At most the region's row count
      is removed from its top; as many blank rows are appended through addLine before the tail
      comes back. A negative count throws in removeTopLines with head and tail detached. */
  function DeleteFromCut(c: Cut, count: int): (r: Outcome<()>)
    ensures r.Thrown? <==> count < 0
    ensures r.Thrown? ==> r.error == IndexOutOfBounds
  {
    var toRemove := Min(count, |c.middle|);
    if toRemove < 0 then Thrown(c.middle, IndexOutOfBounds)
    else
      var rest := RemoveTopLines(c.middle, toRemove);
      var merged := MoveBottomLinesTo(c.head, |c.head|, rest).dest;
      var filled := AppendAll(merged, Blanks(toRemove));
      Ok(MoveTopLinesTo(c.tail, |c.tail|, filled).dest, ())
  }
}

=== FILE: slices.dfy ===
/**
 Sequence facts the region operations rely on, stated once for any element type so that the
 proofs about rows stay small: fills, prefixes across a concatenation, and a window of a
 sequence shifted down or up with filler entering at the open end.
 */
module Slices {
  /** k copies of x. */
  function Fill<T>(k: nat, x: T): (r: seq<T>)
    ensures |r| == k
    ensures forall i :: 0 <= i < k ==> r[i] == x
  {
    if k == 0 then [] else Fill(k - 1, x) + [x]
  }

  /** A prefix reaching past a: all of a and the start of b. */
  lemma TakeAcross<T>(a: seq<T>, b: seq<T>, k: nat)
    requires k <= |b|
    ensures (a + b)[..|a| + k] == a + b[..k]
  {
  }

  /** A prefix that stays inside a. */
  lemma TakeWithin<T>(a: seq<T>, b: seq<T>, k: nat)
    requires k <= |a|
    ensures (a + b)[..k] == a[..k]
  {
  }

  lemma FillSplit<T>(n: nat, m: nat, x: T)
    ensures Fill(n + m, x) == Fill(n, x) + Fill(m, x)
  {
  }

  /** The last n of k fillers are n fillers. */
  lemma FillSuffix<T>(k: nat, n: nat, x: T)
    requires n <= k
    ensures Fill(k, x)[k - n..] == Fill(n, x)
  {
  }

  /** Dropping `count` elements from the bottom of head + count fillers + region, where t is
      the smaller of count and |region|: the head, t fillers and the region's top stay. */
  lemma DropBelow<T>(head: seq<T>, region: seq<T>, count: nat, t: nat, x: T)
    requires t == if count < |region| then count else |region|
    ensures var merged := head + Fill(count, x) + region;
      merged[..|merged| - count] == head + Fill(t, x) + region[..|region| - t]
  {
    var merged := head + Fill(count, x) + region;
    if count <= |region| {
      TakeAcross(head + Fill(count, x), region, |region| - count);
    } else {
      FillSplit(t, count - t, x);
      assert merged == (head + Fill(t, x)) + (Fill(count - t, x) + region);
      TakeWithin(head + Fill(t, x), Fill(count - t, x) + region, |head| + t);
      assert region[..|region| - t] == [];
    }
  }

  /** b with the window [lo, hi) moved down by t: t fillers at the window's top, its bottom t
      elements gone. */
  function ShiftDown<T>(b: seq<T>, lo: nat, hi: nat, t: nat, x: T): (r: seq<T>)
    requires lo <= hi <= |b| && t <= hi - lo
    ensures |r| == |b|
  {
    b[..lo] + Fill(t, x) + b[lo..hi - t] + b[hi..]
  }

  /** b with the window [lo, hi) moved up by t: its top t elements gone, t fillers at its
      bottom. */
  function ShiftUp<T>(b: seq<T>, lo: nat, hi: nat, t: nat, x: T): (r: seq<T>)
    requires lo <= hi <= |b| && t <= hi - lo
    ensures |r| == |b|
  {
    b[..lo] + b[lo + t..hi] + Fill(t, x) + b[hi..]
  }

  /** ShiftDown of b, in terms of the parts of b above, inside and below the window. */
  lemma ShiftDownPieces<T>(b: seq<T>, lo: nat, hi: nat, head: seq<T>, middle: seq<T>, tail: seq<T>, t: nat, x: T)
    requires lo <= hi <= |b| && t <= hi - lo
    requires head == b[..lo] && middle == b[lo..hi] && tail == b[hi..]
    ensures ShiftDown(b, lo, hi, t, x) == head + Fill(t, x) + middle[..|middle| - t] + tail
  {
    assert middle[..|middle| - t] == b[lo..hi - t];
  }

  /** ShiftUp of b, in terms of the parts of b above, inside and below the window. */
  lemma ShiftUpPieces<T>(b: seq<T>, lo: nat, hi: nat, head: seq<T>, middle: seq<T>, tail: seq<T>, t: nat, x: T)
    requires lo <= hi <= |b| && t <= hi - lo
    requires head == b[..lo] && middle == b[lo..hi] && tail == b[hi..]
    ensures ShiftUp(b, lo, hi, t, x) == head + middle[t..] + Fill(t, x) + tail
  {
    assert middle[t..] == b[lo + t..hi];
  }

  /** Element by element, r is b with the window [lo, hi) shifted down by `count`: outside the
      window unchanged, the window's first `count` entries x, every further one the entry
      `count` places above it. */
  ghost predicate ShiftedDown<T>(b: seq<T>, r: seq<T>, lo: int, hi: int, count: nat, x: T)
  {
    && |r| == |b|
    && (forall i :: 0 <= i < lo && i < |b| ==> r[i] == b[i])
    && (forall i :: hi <= i < |b| && 0 <= i ==> r[i] == b[i])
    && (forall i :: lo <= i < hi && i < lo + count && 0 <= i < |b| ==> r[i] == x)
    && (forall i :: lo + count <= i < hi && 0 <= i - count && i < |b| ==> r[i] == b[i - count])
  }

  /** Element by element, r is b with the window [lo, hi) shifted up by t: outside the window
      unchanged, window entry i the entry i + t while that is inside the window, the last t
      entries x. */
  ghost predicate ShiftedUp<T>(b: seq<T>, r: seq<T>, lo: int, hi: int, t: nat, x: T)
  {
    && |r| == |b|
    && (forall i :: 0 <= i < lo && i < |b| ==> r[i] == b[i])
    && (forall i :: hi <= i < |b| && 0 <= i ==> r[i] == b[i])
    && (forall i :: lo <= i < hi - t && 0 <= i && i + t < |b| ==> r[i] == b[i + t])
    && (forall i :: hi - t <= i < hi && 0 <= i < |b| ==> r[i] == x)
  }

  lemma ShiftDownElements<T>(b: seq<T>, lo: nat, hi: nat, t: nat, count: nat, x: T)
    requires lo <= hi <= |b| && t == if count < hi - lo then count else hi - lo
    ensures ShiftedDown(b, ShiftDown(b, lo, hi, t, x), lo, hi, count, x)
  {
    var r := ShiftDown(b, lo, hi, t, x);
    var front := b[..lo] + Fill(t, x);
    var moved := b[lo..hi - t];
    assert r == front + moved + b[hi..];
    assert forall i :: lo + count <= i < hi ==> r[i] == moved[i - lo - t];
  }

  lemma ShiftUpElements<T>(b: seq<T>, lo: nat, hi: nat, t: nat, x: T)
    requires lo <= hi <= |b| && t <= hi - lo
    ensures ShiftedUp(b, ShiftUp(b, lo, hi, t, x), lo, hi, t, x)
  {
    var r := ShiftUp(b, lo, hi, t, x);
    var front := b[..lo] + b[lo + t..hi];
    assert r == front + Fill(t, x) + b[hi..];
  }

  /** Shifting a window down and then up by the same t loses only its bottom t entries, which
      come back as fillers. */
  lemma ShiftDownThenUp<T>(b: seq<T>, lo: nat, hi: nat, t: nat, x: T, mid: seq<T>)
    requires lo <= hi <= |b| && t <= hi - lo && mid == ShiftDown(b, lo, hi, t, x)
    ensures |mid| == |b|
    ensures ShiftUp(mid, lo, hi, t, x) == b[..hi - t] + Fill(t, x) + b[hi..]
  {
    assert mid[..lo] == b[..lo];
    assert mid[lo + t..hi] == b[lo..hi - t];
    assert mid[hi..] == b[hi..];
    assert b[..lo] + b[lo..hi - t] == b[..hi - t];
  }
}

=== FILE: storage.dfy ===
/**
 Row storage of LinesBuffer: the ordered list of rows, the capacity-bounded append with its
 eviction ratchet, and the shape of a call's outcome (Java exceptions included).
 */
module Storage {
  import opened TerminalLines

  /** BUFFER_MAX_LINES. Eviction is checked before appending, so a buffer grown only by
      appends holds at most MaxLines + 1 rows. */
  const MaxLines: nat := 1000

  /** The rows of a buffer, index 0 at the top (oldest). The line count is `|lines|`. */
  type Lines = seq<Line>

  /** The Java exceptions a call can raise. ArrayList.subList throws IndexOutOfBounds for a
      negative start or an end past the size, and IllegalArgument for a start past the end;
      ArrayList.get throws IndexOutOfBounds. */
  datatype Exception = IndexOutOfBounds | IllegalArgument

  /** What a call on the buffer leaves behind: the rows afterwards, and either the returned
      value or the exception it threw. A throw does not roll back rows already changed. */
  datatype Outcome<T> = Ok(lines: Lines, value: T) | Thrown(lines: Lines, error: Exception)

  function Min(a: int, b: int): int { if a < b then a else b }

  function Max(a: int, b: int): int { if a < b then b else a }

  /** The newest k rows of b. */
  function Last(b: Lines, k: nat): Lines
    requires k <= |b|
  {
    b[|b| - k..]
  }

  /** addLine: evict the top row when the buffer holds more than MaxLines rows, then append. */
  function AddLine(b: Lines, line: Line): (r: Lines)
    ensures |r| == (if |b| > MaxLines then |b| else |b| + 1)
    ensures r[|r| - 1] == line
    ensures r[..|r| - 1] == Last(b, |r| - 1)
    ensures |b| <= MaxLines + 1 ==> |r| <= MaxLines + 1
  {
    (if |b| > MaxLines then b[1..] else b) + [line]
  }

  /** The public addNewLine(style, characters): append a one-run row. */
  function AddNewLine(b: Lines, style: Style, text: string): (r: Lines)
    ensures |r| > 0 && Text(r[|r| - 1]) == text && r[|r| - 1].entries == [TextEntry(style, text)]
    ensures |b| <= MaxLines ==> |r| == |b| + 1 && r[..|b|] == b
    ensures |b| > MaxLines ==> |r| == |b| && r[..|b| - 1] == b[1..]
  {
    AddLine(b, NewLine(style, text))
  }

  /** Repeated addLine, one row at a time, in order (the loops of getLine, insertLines and
      deleteLines). */
  function AppendAll(b: Lines, ls: Lines): Lines
    decreases |ls|
  {
    if ls == [] then b else AppendAll(AddLine(b, ls[0]), ls[1..])
  }

  /** How many rows survive appending k rows to a buffer of n rows. */
  function RatchetSize(n: nat, k: nat): nat
  {
    if n > MaxLines + 1 then n else Min(n + k, MaxLines + 1)
  }

  lemma LastOfLast(b: Lines, j: nat, k: nat)
    requires k <= j <= |b|
    ensures Last(Last(b, j), k) == Last(b, k)
  {
  }

  /** One addLine of the first pending row: the buffer followed by the rest of the rows is a
      suffix of the buffer followed by all of them. */
  lemma AddLineStep(b: Lines, ls: Lines)
    requires ls != []
    ensures AddLine(b, ls[0]) + ls[1..] == Last(b + ls, |AddLine(b, ls[0])| + |ls| - 1)
  {
    var b1 := AddLine(b, ls[0]);
    assert b1 == Last(b + [ls[0]], |b1|);
    assert b + ls == (b + [ls[0]]) + ls[1..];
  }

  /** The ratchet size after one more append. */
  lemma RatchetStep(n: nat, k: nat)
    requires k > 0
    ensures RatchetSize(if n > MaxLines then n else n + 1, k - 1) == RatchetSize(n, k)
  {
  }

  /** Appending rows one by one keeps exactly the newest RatchetSize rows of the whole history,
      in insertion order: eviction only ever drops the oldest row. */
  lemma {:induction false} AppendAllKeepsNewest(b: Lines, ls: Lines)
    ensures RatchetSize(|b|, |ls|) <= |b| + |ls|
    ensures AppendAll(b, ls) == Last(b + ls, RatchetSize(|b|, |ls|))
    decreases |ls|
  {
    if ls == [] {
      assert b + ls == b;
    } else {
      var b1 := AddLine(b, ls[0]);
      AppendAllKeepsNewest(b1, ls[1..]);
      RatchetStep(|b|, |ls|);
      AddLineStep(b, ls);
      LastOfLast(b + ls, |b1| + |ls| - 1, RatchetSize(|b|, |ls|));
    }
  }

  /** k appends to an empty buffer leave its newest min(k, MaxLines + 1) rows, in order. */
  lemma AppendsToEmpty(ls: Lines)
    ensures AppendAll([], ls) == Last(ls, Min(|ls|, MaxLines + 1))
  {
    AppendAllKeepsNewest([], ls);
    assert [] + ls == ls;
  }

  /** The ratchet invariant: at most MaxLines + 1 rows before means at most that many after. */
  lemma AppendAllBounded(b: Lines, ls: Lines)
    requires |b| <= MaxLines + 1
    ensures |AppendAll(b, ls)| == Min(|b| + |ls|, MaxLines + 1)
  {
    AppendAllKeepsNewest(b, ls);
  }

  /** Appends that stay within MaxLines + 1 rows evict nothing. */
  lemma AppendAllWithoutEviction(b: Lines, ls: Lines)
    requires |b| + |ls| <= MaxLines + 1
    ensures AppendAll(b, ls) == b + ls
  {
    AppendAllKeepsNewest(b, ls);
  }
}

=== FILE: transfer.dfy ===
/**
 Segment transfer between two buffers: cutting rows off the top or the bottom of one buffer
 and attaching them to another. The region operations are built from these. The Java code
 works on list views and fresh copies; here every buffer is an immutable sequence, so source
 and destination are always distinct values.
 */
module Transfer {
  import opened TerminalLines
  import opened Storage

  /** The two buffers after a transfer. */
  datatype Moved = Moved(source: Lines, dest: Lines)

  /** removeTopLines(count): drop the first `count` rows. */
  function RemoveTopLines(b: Lines, count: int): (r: Lines)
    requires 0 <= count <= |b|
    ensures |r| == |b| - count
  {
    b[count..]
  }

  /** removeBottomLines(count): drop the last `count` rows. */
  function RemoveBottomLines(b: Lines, count: int): (r: Lines)
    requires 0 <= count <= |b|
    ensures |r| == |b| - count
  {
    b[..|b| - count]
  }

  /** The removed top rows followed by what removeTopLines leaves are the buffer. */
  lemma RemoveTopLinesSplits(b: Lines, count: int)
    requires 0 <= count <= |b|
    ensures b[..count] + RemoveTopLines(b, count) == b
  {
  }

  /** What removeBottomLines leaves followed by the removed bottom rows are the buffer. */
  lemma RemoveBottomLinesSplits(b: Lines, count: int)
    requires 0 <= count <= |b|
    ensures RemoveBottomLines(b, count) + Last(b, count) == b
  {
  }

  /** addLines: append rows at the bottom, without eviction. */
  function AddLines(b: Lines, lines: Lines): (r: Lines)
    ensures |r| == |b| + |lines|
  {
    b + lines
  }

  /** addLinesFirst: insert rows at the top, without eviction. */
  function AddLinesFirst(b: Lines, lines: Lines): (r: Lines)
    ensures |r| == |b| + |lines|
  {
    lines + b
  }

  /** After addLines the old rows are on top and the added ones at the bottom; removing as many
      rows from the bottom gives the buffer back. */
  lemma AddLinesUndone(b: Lines, lines: Lines)
    ensures var r := AddLines(b, lines);
      r[..|b|] == b && Last(r, |lines|) == lines && RemoveBottomLines(r, |lines|) == b
  {
  }

  /** After addLinesFirst the added rows are on top and the old ones at the bottom; removing as
      many rows from the top gives the buffer back. */
  lemma AddLinesFirstUndone(b: Lines, lines: Lines)
    ensures var r := AddLinesFirst(b, lines);
      r[..|lines|] == lines && Last(r, |b|) == b && RemoveTopLines(r, |lines|) == b
  {
  }

  /** moveTopLinesTo(count, dst): the first min(count, |src|) rows of src go, in order, to
      the bottom of dst. */
  function MoveTopLinesTo(src: Lines, count: int, dst: Lines): (r: Moved)
    requires count >= 0
    ensures |r.dest| - |dst| == Min(count, |src|)
    ensures |r.source| + |r.dest| == |src| + |dst|
  {
    var k := Min(count, |src|);
    Moved(RemoveTopLines(src, k), AddLines(dst, src[..k]))
  }

  /** moveBottomLinesTo(count, dst): the last min(count, |src|) rows of src go, in order, to
      the top of dst. */
  function MoveBottomLinesTo(src: Lines, count: int, dst: Lines): (r: Moved)
    requires count >= 0
    ensures |r.dest| - |dst| == Min(count, |src|)
    ensures |r.source| + |r.dest| == |src| + |dst|
  {
    var k := Min(count, |src|);
    Moved(RemoveBottomLines(src, k), AddLinesFirst(dst, Last(src, k)))
  }

  /** After moveTopLinesTo the destination keeps its rows in front, and the moved rows followed
      by what is left of the source are the old source: nothing is lost or reordered. */
  lemma MoveTopLinesToConserves(src: Lines, count: int, dst: Lines)
    requires count >= 0
    ensures var r := MoveTopLinesTo(src, count, dst);
      r.dest[..|dst|] == dst && r.dest[|dst|..] + r.source == src
  {
    var k := Min(count, |src|);
    assert src[..k] + src[k..] == src;
  }

  /** After moveBottomLinesTo the destination keeps its rows at the bottom, and what is left of
      the source followed by the moved rows is the old source. */
  lemma MoveBottomLinesToConserves(src: Lines, count: int, dst: Lines)
    requires count >= 0
    ensures var r := MoveBottomLinesTo(src, count, dst);
      Last(r.dest, |dst|) == dst && r.source + r.dest[..|r.dest| - |dst|] == src
  {
    var k := Min(count, |src|);
    assert src[..|src| - k] + src[|src| - k..] == src;
  }

  /** The exact rows on each side after moveTopLinesTo. */
  lemma MoveTopSlices(src: Lines, count: int, dst: Lines)
    requires count >= 0
    ensures var k := Min(count, |src|);
      MoveTopLinesTo(src, count, dst) == Moved(src[k..], dst + src[..k])
  {
  }

  /** The exact rows on each side after moveBottomLinesTo. */
  lemma MoveBottomSlices(src: Lines, count: int, dst: Lines)
    requires count >= 0
    ensures var k := Min(count, |src|);
      MoveBottomLinesTo(src, count, dst) == Moved(src[..|src| - k], src[|src| - k..] + dst)
  {
  }

  /** Moving every row of src to the top of dst puts src in front of dst. */
  lemma MoveAllBottom(src: Lines, dst: Lines)
    ensures MoveBottomLinesTo(src, |src|, dst) == Moved([], src + dst)
  {
    MoveBottomSlices(src, |src|, dst);
    assert src[|src| - |src|..] == src;
  }

  /** Moving every row of src to the bottom of dst puts src after dst. */
  lemma MoveAllTop(src: Lines, dst: Lines)
    ensures MoveTopLinesTo(src, |src|, dst) == Moved([], dst + src)
  {
    MoveTopSlices(src, |src|, dst);
    assert src[..|src|] == src;
  }

  /** Cutting a buffer into head, middle and tail the way insertLines and deleteLines do, and
      reattaching head and tail with the same primitives, reorders nothing. */
  lemma CutAndReattach(b: Lines, lo: nat, hi: nat)
    requires lo <= hi <= |b|
    ensures
      var cut := MoveBottomLinesTo(b, |b| - hi, []);
      var split := MoveTopLinesTo(cut.source, lo, []);
      var middle := MoveBottomLinesTo(split.dest, |split.dest|, split.source).dest;
      && cut.dest == b[hi..]
      && split.dest == b[..lo]
      && split.source == b[lo..hi]
      && MoveTopLinesTo(cut.dest, |cut.dest|, middle).dest == b
  {
    var cut := MoveBottomLinesTo(b, |b| - hi, []);
    assert cut.source == b[..hi];
    var split := MoveTopLinesTo(cut.source, lo, []);
    var middle := MoveBottomLinesTo(split.dest, |split.dest|, split.source).dest;
    assert middle == b[..hi];
  }
}

=== FILE: traversal.dfy ===
/**
 Read-only walks over the buffer: iterateLines and processLines hand every text run of a
 window of rows to a callback, with its starting column; getLines joins the row texts. The
 callbacks are modelled by the sequence of calls they receive.
 */
module Traversal {
  import opened TerminalLines
  import opened Storage

  /** One TextEntryProcessor.process(x, y, entry) call. */
  datatype Visit = Visit(x: nat, y: nat, style: Style, text: string)

  /** One StyledTextConsumer.consume(x, y, style, text, origin) call. */
  datatype Consumed = Consumed(x: nat, y: int, style: Style, text: string, origin: int)

  /** Row y is inside the window of `count` rows starting at `first`. */
  predicate InWindow(y: int, first: int, count: int)
  {
    first <= y < first + count
  }

  /** The calls for the runs of one row: run j starts at the width of the runs before it. */
  function RowVisits(line: Line, y: nat): seq<Visit>
  {
    seq(|line.entries|, j requires 0 <= j < |line.entries| =>
      Visit(Width(line.entries[..j]), y, line.entries[j].style, line.entries[j].text))
  }

  /** The calls iterateLines makes, row by row from the top: the runs of every row inside the
      window, none for the others. */
  function Visits(b: Lines, first: int, count: int): seq<Visit>
  {
    if b == [] then []
    else
      var y := |b| - 1;
      Visits(b[..y], first, count) + (if InWindow(y, first, count) then RowVisits(b[y], y) else [])
  }

  /** Calls in row-major order: rows never go back up, and within a row the column starts at
      0 and each next column is the previous one plus the previous run's length. */
  ghost predicate RowMajor(vs: seq<Visit>)
  {
    && (forall i, j :: 0 <= i < j < |vs| ==> vs[i].y <= vs[j].y)
    && (forall i :: 0 <= i < |vs| - 1 ==> Follows(vs[i], vs[i + 1]))
    && (|vs| > 0 ==> vs[0].x == 0)
  }

  /** The column of a call given the call before it: the next column of the same row, or 0 on
      a new row. */
  predicate Follows(prev: Visit, next: Visit)
  {
    if prev.y == next.y then next.x == prev.x + |prev.text| else next.x == 0
  }

  lemma WidthStep(entries: seq<TextEntry>, j: nat)
    requires j < |entries|
    ensures Width(entries[..j + 1]) == Width(entries[..j]) + |entries[j].text|
  {
    assert entries[..j + 1][..j] == entries[..j];
  }

  /** One row's calls are row-major and all carry that row's index. */
  lemma RowVisitsRowMajor(line: Line, y: nat)
    ensures RowMajor(RowVisits(line, y))
    ensures forall v :: v in RowVisits(line, y) ==> v.y == y
  {
    var vs := RowVisits(line, y);
    forall i | 0 <= i < |vs| - 1
      ensures Follows(vs[i], vs[i + 1])
    {
      WidthStep(line.entries, i);
    }
    if |vs| > 0 {
      assert line.entries[..0] == [];
    }
  }

  /** Every call is for a row of the buffer inside the window, and is one of that row's run
      calls. */
  lemma {:induction false} VisitsSound(b: Lines, first: int, count: int)
    ensures forall v :: v in Visits(b, first, count) ==>
      v.y < |b| && InWindow(v.y, first, count) && v in RowVisits(b[v.y], v.y)
  {
    if b != [] {
      var y := |b| - 1;
      VisitsSound(b[..y], first, count);
      RowVisitsRowMajor(b[y], y);
    }
  }

  /** Every run of every buffer row inside the window gets its call. */
  lemma {:induction false} VisitsComplete(b: Lines, first: int, count: int)
    ensures forall y: nat, v :: y < |b| && InWindow(y, first, count) && v in RowVisits(b[y], y) ==>
      v in Visits(b, first, count)
  {
    if b != [] {
      var last := |b| - 1;
      VisitsComplete(b[..last], first, count);
      forall y: nat, v | y < |b| && InWindow(y, first, count) && v in RowVisits(b[y], y)
        ensures v in Visits(b, first, count)
      {
        if y < last {
          assert b[..last][y] == b[y];
        }
      }
    }
  }

  /** Appending the calls of a lower row keeps the order row-major. */
  lemma RowMajorAppend(front: seq<Visit>, row: seq<Visit>, y: nat)
    requires RowMajor(front) && RowMajor(row)
    requires forall v :: v in front ==> v.y < y
    requires forall v :: v in row ==> v.y == y
    ensures RowMajor(front + row)
  {
    var vs := front + row;
    var n := |front|;
    forall i | 0 <= i < |vs|
      ensures i < n ==> vs[i] == front[i] && vs[i].y < y
      ensures n <= i ==> vs[i] == row[i - n] && vs[i].y == y
    {
      if i < n {
        assert front[i] in front;
      } else {
        assert row[i - n] in row;
      }
    }
    forall i, j | 0 <= i < j < |vs|
      ensures vs[i].y <= vs[j].y
    {
      if j < n {
        assert vs[i] == front[i] && vs[j] == front[j];
      } else if n <= i {
        assert vs[i] == row[i - n] && vs[j] == row[j - n];
      }
    }
    forall i | 0 <= i < |vs| - 1
      ensures Follows(vs[i], vs[i + 1])
    {
      if i + 1 < n {
        assert vs[i] == front[i] && vs[i + 1] == front[i + 1];
      } else if i + 1 == n {
        assert vs[i + 1] == row[0];
      } else {
        assert vs[i] == row[i - n] && vs[i + 1] == row[i + 1 - n];
      }
    }
  }

  /** The calls come in row-major order. */
  lemma {:induction false} VisitsRowMajor(b: Lines, first: int, count: int)
    ensures RowMajor(Visits(b, first, count))
  {
    if b != [] {
      var y := |b| - 1;
      VisitsRowMajor(b[..y], first, count);
      VisitsSound(b[..y], first, count);
      RowVisitsRowMajor(b[y], y);
      var row := if InWindow(y, first, count) then RowVisits(b[y], y) else [];
      RowMajorAppend(Visits(b[..y], first, count), row, y);
    }
  }

  /** The entry loop of iterateLines for one row at index y: each run is handed over with its
      starting column, unless the row is at or below the window's end (`beyond`), in which case
      the loop stops at its first run. */
  method RowRuns(line: Line, y: nat, beyond: bool) returns (row: seq<Visit>)
    ensures row == if beyond then [] else RowVisits(line, y)
  {
    row := [];
    var x := 0;
    var j := 0;
    while j < |line.entries|
      invariant 0 <= j <= |line.entries|
      invariant x == Width(line.entries[..j])
      invariant beyond ==> j == 0
      invariant row == RowVisits(line, y)[..j]
    {
      var entry := line.entries[j];
      if beyond {
        break;
      }
      row := row + [Visit(x, y, entry.style, entry.text)];
      WidthStep(line.entries, j);
      x := x + |entry.text|;
      j := j + 1;
    }
    if !beyond {
      assert RowVisits(line, y)[..|line.entries|] == RowVisits(line, y);
    }
  }

  /** iterateLines(firstLine, count, processor), with the Java loops: every row is walked, rows
      above the window are skipped, and a row at or below the window's end stops at its first
      run. */
  method IterateLines(b: Lines, first: int, count: int) returns (visits: seq<Visit>)
    ensures visits == Visits(b, first, count)
    ensures RowMajor(visits)
    ensures forall v :: v in visits ==> v.y < |b| && InWindow(v.y, first, count) && v in RowVisits(b[v.y], v.y)
    ensures forall y: nat, v :: y < |b| && InWindow(y, first, count) && v in RowVisits(b[y], y) ==> v in visits
  {
    visits := [];
    var y := 0;
    while y < |b|
      invariant 0 <= y <= |b|
      invariant visits == Visits(b[..y], first, count)
    {
      if y >= first {
        var row := RowRuns(b[y], y, y >= first + count);
        visits := visits + row;
      }
      assert b[..y + 1][..y] == b[..y];
      y := y + 1;
    }
    assert b[..|b|] == b;
    VisitsRowMajor(b, first, count);
    VisitsSound(b, first, count);
    VisitsComplete(b, first, count);
  }

  /** processLines(firstLine, count, consumer): the window is given relative to the buffer's
      end, so rows of the buffer come out with negative y in [firstLine, firstLine + count),
      and every call carries -|b| as the origin. */
  function ProcessLines(b: Lines, first: int, count: int): (r: seq<Consumed>)
    ensures var vs := Visits(b, |b| + first, count);
      && |r| == |vs|
      && forall i :: 0 <= i < |r| ==>
        && r[i] == Consumed(vs[i].x, vs[i].y - |b|, vs[i].style, vs[i].text, -|b|)
        && -|b| <= r[i].y < 0
        && InWindow(r[i].y, first, count)
  {
    var vs := Visits(b, |b| + first, count);
    VisitsSound(b, |b| + first, count);
    seq(|vs|, i requires 0 <= i < |vs| =>
      Consumed(vs[i].x, vs[i].y - |b|, vs[i].style, vs[i].text, -|b|))
  }

  /** The row texts joined with "\n" between consecutive rows. */
  function Joined(b: Lines): string
  {
    if |b| == 0 then ""
    else if |b| == 1 then Text(b[0])
    else Joined(b[..|b| - 1]) + "\n" + Text(b[|b| - 1])
  }

  /** Joining two non-empty halves separately and gluing them with "\n" is joining the whole. */
  lemma {:induction false} JoinedConcat(a: Lines, c: Lines)
    requires |a| > 0 && |c| > 0
    ensures Joined(a + c) == Joined(a) + "\n" + Joined(c)
    decreases |c|
  {
    var ac := a + c;
    if |c| == 1 {
      assert ac[..|ac| - 1] == a;
    } else {
      var c' := c[..|c| - 1];
      JoinedConcat(a, c');
      assert ac[..|ac| - 1] == a + c';
    }
  }

  /** getLines(): the row texts with "\n" between rows, built left to right. */
  method GetLines(b: Lines) returns (s: string)
    ensures s == Joined(b)
    ensures |b| == 0 ==> s == ""
  {
    s := "";
    var firstRow := true;
    var i := 0;
    while i < |b|
      invariant 0 <= i <= |b|
      invariant firstRow <==> i == 0
      invariant s == Joined(b[..i])
    {
      if !firstRow {
        s := s + "\n";
      }
      s := s + Text(b[i]);
      firstRow := false;
      assert b[..i + 1][..i] == b[..i];
      i := i + 1;
    }
    assert b[..|b|] == b;
  }
}
